=== FILE: README.md ===
# httpsrest client configuration — a Dafny model

This project models the configuration and string-handling core of the
`HttpsRest` client in `src/httpsrest.py`: a small HTTPS REST client bound to
one host. It covers:

- the cleaning and validation of the host at construction (`_parse_url`);
- the numeric and boolean setters and their getters, including the clamping
  of negative values to 0 (`_parse_no_negative_int`) and the port fallback
  to 443;
- the normalisation of the base route (`set_base_route`);
- route formatting (`format_route`), which joins the base route and the call
  route and optionally percent-encodes the result like
  `urllib.parse.quote(route, safe="/?=&")` (section 2.1 of RFC 3986, with the
  unreserved set of section 2.3 plus `/ ? = &` kept);
- the set of retry status codes, which `set_retry_on_codes` and
  `remove_retry_on_codes` change in place, one code at a time.

Layout:

- `outcomes.dfy` (`Outcomes`): `Result`, which stands in for the exception
  `_parse_url` raises, and `Option`, the result type of the percent-decoder.
- `text.dfy` (`Text`): the Python string operations the client uses:
  `lower()`, `startswith`, `endswith`, `replace(pat, "")` and `rstrip(chars)`.
- `quoting.dfy` (`Quoting`): UTF-8 encoding and `quote`, with a
  percent-decoder as the partner the encoder is proved against.
- `rules.dfy` (`Rules`): the value-level rules of the client. These are the
  defaults, the clamp, the port choice, host cleaning, base-route
  normalisation, route joining and the retry-code set updates.
- `client.dfy` (`Client`): the classes `HttpsRestConfig` and `HttpsRest`.
  Their fields are updated in place by the setters. `State()` gives a
  client's abstract value, and `Valid()` is the invariant that every setter
  keeps. The invariant says that durations and counts are never negative,
  the port lies in 2..65534, the host is clean, and the base route is
  normalised.

Facts about the code that a reader might not expect, all of which the model
reproduces:

- A negative timeout, throttle timeout or retry count is clamped to 0 and
  stored. It is not refused.
- `set_port` keeps a port only when `1 < port < 65535`. So ports 1 and 65535
  are replaced by 443, like every value outside that range.
- `set_base_route` adds a `/` only when the route lacks one. A route such as
  `//a` is stored with both leading slashes.
- The code has no retry or backoff loop. `max_retries` and
  `throttle_timeout` are stored and read back, but no request code reads
  them. So the model has no retry loop either.
- `_parse_url` removes `https://` and `http://` wherever they occur in the
  host, not only at its front. So `ahttps://b` is cleaned to `ab` and
  accepted (`Rules.CleanUrlRemovesInnerScheme`).

## Model

| member | source | states |
|---|---|---|
| `Text.Lower` | src/httpsrest.py:181 | `url.lower()` keeps the length and lower-cases each ASCII letter; the result has no ASCII upper-case letter |
| `Text.StartsWith` | src/httpsrest.py:149 | `s.startswith(prefix)` holds exactly when `s` is `prefix` followed by some string |
| `Text.EndsWith` | src/httpsrest.py:150 | `s.endswith(suffix)` holds exactly when `s` is some string followed by `suffix` |
| `Text.RemoveAll` | src/httpsrest.py:181 | `replace(pat, "")` never lengthens the string and introduces no character that was not there |
| `Text.RemoveAllKeeps` | src/httpsrest.py:181 | a character absent from the pattern is in the result exactly when it is in the input |
| `Text.RemoveAllNoMatch` | src/httpsrest.py:181 | when the pattern occurs nowhere, `replace` returns the input unchanged |
| `Text.RStrip` | src/httpsrest.py:151 | `rstrip(chars)` returns a prefix of the input whose last character is not in `chars`, and everything cut off is in `chars` |
| `Quoting.Utf8Char` | src/httpsrest.py:169 | UTF-8 encoding of one character takes 1 to 4 bytes; an ASCII character is its own byte, and every byte of a non-ASCII character is at least 0x80 (so it is always escaped) |
| `Quoting.Utf8` | src/httpsrest.py:169 | the `encode("utf-8")` step of `quote` gives between one and four bytes per character |
| `Quoting.QuoteByte` | src/httpsrest.py:169 | one byte is emitted as its character when safe and as `%` and two hex digits otherwise, and percent-decoding that gives back the byte |
| `Quoting.QuoteBytes` | src/httpsrest.py:169 | byte-by-byte quoting emits between one and three characters per byte |
| `Quoting.Quote` | src/httpsrest.py:169 | `quote(route, safe="/?=&")` either returns its input unchanged or a strictly longer string |
| `Quoting.QuoteIsQuoteBytes` | src/httpsrest.py:169 | the all-safe shortcut of `quote` returns the same string as escaping byte by byte |
| `Quoting.QuoteRoundTrip` | src/httpsrest.py:169 | percent-decoding the output of `quote` gives back exactly the UTF-8 bytes of the input |
| `Quoting.QuoteUnchangedIff` | src/httpsrest.py:169 | `quote` returns its input unchanged if and only if every character is an ASCII letter or digit, one of `_ . - ~` or one of `/ ? = &` |
| `Quoting.QuoteAlphabet` | src/httpsrest.py:169 | every output character is a safe character, `%` or an upper-case hexadecimal digit |
| `Quoting.QuoteKeepsSafeHead` | src/httpsrest.py:169 | a leading safe character such as `/` is still the first output character |
| `Quoting.QuoteAppend` | src/httpsrest.py:169 | quoting a concatenation gives the concatenation of the quoted parts |
| `Quoting.QuoteSpaceBetween` | src/httpsrest.py:169 | a space between runs of safe characters becomes `%20` and nothing else changes |
| `Rules.ParseNoNegativeInt` | src/httpsrest.py:172-175 | the result is the larger of the value and the default (0): never below either, and equal to one of them |
| `Rules.SelectPort` | src/httpsrest.py:111-114 | the stored port is always strictly between 1 and 65535; it is the given port when that port is in range, and 443 otherwise |
| `Rules.ClampExamples` | tests/httpsrest_test.py:53-67 | -19 gives 0, 0 gives 0 and 10 gives 10 |
| `Rules.PortExamples` | src/httpsrest.py:111-114 | ports 0, 1 and 65535 give 443; ports 2, 65534 and 8443 are kept |
| `Rules.CleanUrl` | src/httpsrest.py:181 | the cleaned URL has no ASCII upper-case letter |
| `Rules.ParseUrl` | src/httpsrest.py:179-190 | succeeds exactly when the cleaned URL has neither `/` nor `?`, and then returns the cleaned URL, a host with no ASCII upper-case letter; a remaining `/` is reported as a route error, checked before a query |
| `Rules.CleanUrlStripsScheme` | src/httpsrest.py:181 | for a host part lacking `/` or `:`, cleaning with no scheme, `https://` or `http://` in front gives `Text.Lower` of the host part (ASCII letters lower-cased) |
| `Rules.ParseUrlAcceptsBareHost` | src/httpsrest.py:179-190 | a host without `/` and `?` is accepted with or without a scheme, and stored with its ASCII letters lower-cased |
| `Rules.ParseUrlKeepsLowerHost` | src/httpsrest.py:179-190 | a host that is already clean is stored exactly as given |
| `Rules.ParseUrlRejectsQuery` | src/httpsrest.py:186-188 | any input containing `?` is refused |
| `Rules.ParseUrlRejectsPath` | src/httpsrest.py:183-185 | a host part with a path and no port colon is refused as a route, with or without a scheme |
| `Rules.ParseUrlAcceptExamples` | tests/httpsrest_test.py:15-35 | `https://example.com`, `http://example.com` and `example.com` give `example.com` |
| `Rules.CleanUrlRemovesInnerScheme` | src/httpsrest.py:181 | a scheme in the middle of the host is removed too: `ahttps://b` cleans to `ab` and is accepted |
| `Rules.ParseUrlRejectExamples` | tests/httpsrest_test.py:15-35 | `https://example.com/api/path` and `http://example.com/api/path` are refused as routes; `example.com?limit=100` is refused |
| `Rules.NormalizeBaseRoute` | src/httpsrest.py:146-154 | the stored route is empty or starts with `/` and does not end with `/`; it is empty exactly when the input is made of slashes only |
| `Rules.NormalizeBaseRouteMeaning` | src/httpsrest.py:146-154 | the stored route is the input with its trailing slashes removed, with one `/` added in front when the remainder lacks one |
| `Rules.NormalizeBaseRouteIdempotent` | src/httpsrest.py:146-154 | normalising a stored base route again changes nothing |
| `Rules.NormalizeBaseRouteExamples` | tests/httpsrest_test.py:38-50 | `api/path/`, `/api/path/`, `api/path` and `/api/path` are all stored as `/api/path` |
| `Rules.JoinRoute` | src/httpsrest.py:164-167 | the combined route is the base route, one `/`, and then the call route without its own leading `/` |
| `Rules.JoinRouteOnNormalizedBase` | src/httpsrest.py:164-167 | on a normalised base route, the combined route starts with `/` and the join does not double the slash |
| `Rules.JoinRouteLeadingSlashOptional` | src/httpsrest.py:164-167 | a call route gives the same path with or without its leading `/` |
| `Rules.AddCodes` | src/httpsrest.py:136-139 | adding codes one by one gives the old set united with the codes |
| `Rules.DiscardCodes` | src/httpsrest.py:141-144 | discarding codes one by one gives the old set minus the codes, and an absent code is no error |
| `Rules.AddCodesCardinality` | src/httpsrest.py:136-139 | adding distinct new codes grows the set by their number |
| `Rules.AddThenDiscardRestores` | src/httpsrest.py:136-144 | discarding codes that were just added, none of them present before, restores the original set |
| `Rules.AddDiscardNoOps` | src/httpsrest.py:136-144 | adding a code that is present, or discarding one that is absent, changes nothing |
| `Rules.AddNewCodesThenDiscard` | src/httpsrest.py:136-144 | distinct new codes grow the set by their number, each becomes a member, and discarding them restores the set |
| `Rules.DefaultRetryCodesCount` | src/httpsrest.py:25 | the default retry set holds nine codes |
| `Rules.RetryCodesExample` | tests/httpsrest_test.py:105-114 | adding 1, 2, -3, 4 to the default set grows it by four and makes 4 a member; removing them restores the size and membership |
| `Client.FormatRouteExamples` | src/httpsrest.py:162-170 | with base route `/api/path`, `v1` and `/v1` both give `/api/path/v1`; with encoding, `a b?x=1` gives `/api/path/a%20b?x=1` |
| `Client.HttpsRestConfig.constructor` | src/httpsrest.py:42-50 | a new configuration has timeout 30, throttle timeout 60, 3 retries, the default retry set, URL encoding on, form encoding off and port 443 |
| `Client.HttpsRest.constructor` | src/httpsrest.py:58-64 | for a host that parses, the new client stores the cleaned host, the normalised base route and the default configuration, and is valid |
| `Client.HttpsRest.Create` | src/httpsrest.py:58-64 | construction fails with the host's error exactly when `_parse_url` refuses it; otherwise it gives a fresh valid client in the initial state |
| `Client.HttpsRest.Url` | src/httpsrest.py:66-69 | the host read back is the client's stored host, which has no ASCII upper-case letter and no `/` or `?` |
| `Client.HttpsRest.BaseRoute` | src/httpsrest.py:71-74 | the base route read back is the client's stored one, which is normalised |
| `Client.HttpsRest.Port` | src/httpsrest.py:76-79 | the port read back is the client's stored port, strictly between 1 and 65535 |
| `Client.HttpsRest.Timeout` | src/httpsrest.py:81-84 | the timeout read back is the client's stored one, never negative |
| `Client.HttpsRest.ThrottleTimeout` | src/httpsrest.py:86-89 | the throttle timeout read back is the client's stored one, never negative |
| `Client.HttpsRest.MaxRetries` | src/httpsrest.py:91-94 | the retry count read back is the client's stored one, never negative |
| `Client.HttpsRest.EncodeUrl` | src/httpsrest.py:96-99 | the URL-encoding flag read back is the one in the client's state, which `SetEncodeUrl` sets and `FormatRoute` consults |
| `Client.HttpsRest.UseUrlencode` | src/httpsrest.py:101-104 | the form-encoding flag read back is the one in the client's state, which `SetUseUrlencode` sets |
| `Client.HttpsRest.RetryOn` | src/httpsrest.py:106-109 | the listed codes are exactly the members of the retry set, each once |
| `Client.HttpsRest.SetPort` | src/httpsrest.py:111-114 | only the port changes, to `SelectPort(port)`; the invariant is kept |
| `Client.HttpsRest.SetTimeout` | src/httpsrest.py:116-118 | only the connection timeout changes, to the value clamped at 0 |
| `Client.HttpsRest.SetThrottleTimeout` | src/httpsrest.py:120-122 | only the throttle timeout changes, to the value clamped at 0 |
| `Client.HttpsRest.SetMaxRetries` | src/httpsrest.py:124-126 | only the retry count changes, to the value clamped at 0 |
| `Client.HttpsRest.SetEncodeUrl` | src/httpsrest.py:128-130 | only the URL-encoding flag changes, to the given value, and the getter then returns it |
| `Client.HttpsRest.SetUseUrlencode` | src/httpsrest.py:132-134 | only the form-encoding flag changes, to the given value, and the getter then returns it |
| `Client.HttpsRest.SetRetryOnCodes` | src/httpsrest.py:136-139 | only the retry set changes, to the old set with the codes added |
| `Client.HttpsRest.RemoveRetryOnCodes` | src/httpsrest.py:141-144 | only the retry set changes, to the old set with the codes discarded |
| `Client.HttpsRest.SetBaseRoute` | src/httpsrest.py:146-154 | only the base route changes, to the normalised route, and the stored value is returned |
| `Client.HttpsRest.FormatRoute` | src/httpsrest.py:162-170 | the path starts with `/`; without encoding it is the joined route; with encoding it is `Quote` of the joined route, so `/ ? = &` and the unreserved characters stay as they are; it decodes back to the joined route's UTF-8 bytes and uses only safe characters, `%` and hexadecimal digits |

## Left out

- `_connect`, `get`, `_handle_request`, `_parse_response` and `HttpsResult` (src/httpsrest.py:30-36, 192-242): network I/O over `http.client.HTTPSConnection`, the classification of transport errors into statuses 900 and 901, and `json.loads` of the body. These are calls into library code whose behaviour cannot be seen. The client's connection field is left out with them.
- `format_payload` (src/httpsrest.py:156-160): it wraps `json.dumps` and `parse.urlencode(doseq=True)`, which cannot be seen.
- The `ValueError` branch of `_parse_no_negative_int` for a value that is not an `int` (src/httpsrest.py:176-177): Dafny's typing makes this dynamic check vacuous.
- `bool(x)` in the two boolean setters: the model takes a `bool`, so the truthiness of other Python values (`0`, `"foo"`) is not modelled.
- `Text.Lower`: it lower-cases ASCII letters only. Python's `str.lower` also maps non-ASCII letters, and can change a string's length when it does so.
- `RETRY_ON_DEFAULT` is one module-level set shared by reference by every configuration (src/httpsrest.py:25, 47). In the source, adding a code on one client therefore changes the default for every other client. The model gives each configuration its own set value, so this cross-instance effect is not reproduced.
- The order of the tuple returned by the `retry_on` getter is Python's set iteration order. The model promises no order.
- Logging calls.
- `Client.HttpsRest.constructor`: it requires a host that `ParseUrl` accepts. The refusal of any other host is modelled by `Client.HttpsRest.Create`.

=== FILE: client.dfy ===
/**
  The `HttpsRest` client and its `HttpsRestConfig`: objects whose fields the
  setters update in place. `State()` is the abstract value of a client; every
  setter states the new value in terms of the old one, and `Valid()` is the
  invariant each of them keeps.
*/
module Client {
  import opened Outcomes
  import opened Quoting
  import opened Rules

  /** The tracked contents of a client, as one value. */
  datatype ClientState = ClientState(
    url: string,
    baseRoute: string,
    connectionTimeout: int,
    throttleTimeout: int,
    maxRetries: int,
    retryOn: set<int>,
    encodeUrl: bool,
    useUrlencode: bool,
    port: int)

  /** A freshly built client: cleaned host, normalised base route, default tunables. */
  function InitialState(host: string, baseRoute: string): (st: ClientState)
  {
    ClientState(host, NormalizeBaseRoute(baseRoute), TIMEOUT_DEFAULT, THROTTLE_TIMEOUT_DEFAULT,
                MAX_RETRIES_DEFAULT, RETRY_ON_DEFAULT, ENCODE_URL_DEFAULT, USE_URLENCODE_DEFAULT,
                PORT_DEFAULT)
  }

  /** A non-empty set has a member to pick. */
  lemma SomeMember(s: set<int>)
    requires s != {}
    ensures exists x :: x in s
  {
    if forall y :: y !in s {
      assert false;
    }
  }

  /**
    Route formatting on base route `/api/path`: a call route with or without
    its leading `/` gives the same path, and with encoding on a space becomes
    `%20` while `/ ? =` stay.
  */
  lemma FormatRouteExamples(base: string, route: string)
    requires base == "/api/path" && route == "a b?x=1"
    ensures JoinRoute(base, "/v1") == base + "/v1" && JoinRoute(base, "v1") == base + "/v1"
    ensures Quote(JoinRoute(base, route)) == base + "/a%20b?x=1"
  {
    assert "/v1"[..1] == "/" && "v1"[..1][0] == 'v';
    assert route[..1][0] == 'a';
    var left, right := base + "/a", "b?x=1";
    assert JoinRoute(base, route) == left + " " + right;
    assert forall i :: 0 <= i < |left| ==> IsSafeChar(left[i]);
    assert forall i :: 0 <= i < |right| ==> IsSafeChar(right[i]);
    QuoteSpaceBetween(left, right);
  }

  /** The client's tunables. */
  class HttpsRestConfig {
    var connectionTimeout: int
    var throttleTimeout: int
    var maxRetries: int
    var retryOn: set<int>
    var encodeUrl: bool
    var useUrlencode: bool
    var port: int

    /** Non-negative durations and counts, and a port the client accepts. */
    ghost predicate Valid()
      reads this
    {
      connectionTimeout >= 0 && throttleTimeout >= 0 && maxRetries >= 0 && IsAllowedPort(port)
    }

    constructor ()
      ensures Valid()
      ensures connectionTimeout == TIMEOUT_DEFAULT && throttleTimeout == THROTTLE_TIMEOUT_DEFAULT
      ensures maxRetries == MAX_RETRIES_DEFAULT && retryOn == RETRY_ON_DEFAULT
      ensures encodeUrl == ENCODE_URL_DEFAULT && useUrlencode == USE_URLENCODE_DEFAULT
      ensures port == PORT_DEFAULT
    {
      connectionTimeout := TIMEOUT_DEFAULT;
      throttleTimeout := THROTTLE_TIMEOUT_DEFAULT;
      maxRetries := MAX_RETRIES_DEFAULT;
      retryOn := RETRY_ON_DEFAULT;
      encodeUrl := ENCODE_URL_DEFAULT;
      useUrlencode := USE_URLENCODE_DEFAULT;
      port := PORT_DEFAULT;
    }
  }

  /** The REST client: a fixed host, a base route and a configuration object. */
  class HttpsRest {
    const url: string
    var baseRoute: string
    const config: HttpsRestConfig

    /** The object invariant every operation keeps. */
    ghost predicate Valid()
      reads this, config
    {
      IsCleanHost(url) && IsNormalizedBaseRoute(baseRoute) && config.Valid()
    }

    /** The abstract value of the client. */
    function State(): ClientState
      reads this, config
    {
      ClientState(url, baseRoute, config.connectionTimeout, config.throttleTimeout,
                  config.maxRetries, config.retryOn, config.encodeUrl, config.useUrlencode,
                  config.port)
    }

    /** Builds a client for a host that `ParseUrl` accepts. */
    constructor (url: string, baseRoute: string := "")
      requires ParseUrl(url).Ok?
      ensures Valid() && fresh(config)
      ensures State() == InitialState(ParseUrl(url).value, baseRoute)
    {
      this.url := ParseUrl(url).value;
      this.baseRoute := "";
      this.config := new HttpsRestConfig();
      new;
      var stored := SetBaseRoute(baseRoute);
    }

    /** `HttpsRest(url, base_route)`: refused exactly when the host does not parse. */
    static method Create(url: string, baseRoute: string := "") returns (r: Result<HttpsRest, UrlError>)
      ensures ParseUrl(url).Err? ==> r == Err(ParseUrl(url).error)
      ensures ParseUrl(url).Ok? ==> r.Ok? && fresh(r.value) && fresh(r.value.config)
      ensures r.Ok? ==> r.value.Valid() && r.value.State() == InitialState(ParseUrl(url).value, baseRoute)
    {
      match ParseUrl(url)
      case Err(e) =>
        r := Err(e);
      case Ok(_) =>
        var client := new HttpsRest(url, baseRoute);
        r := Ok(client);
    }

    // -------------------------------------------------------------------
    // Getters

    function Url(): (h: string)
      reads this, config
      requires Valid()
      ensures h == State().url && IsCleanHost(h)
    {
      url
    }

    function BaseRoute(): (r: string)
      reads this, config
      requires Valid()
      ensures r == State().baseRoute && IsNormalizedBaseRoute(r)
    {
      baseRoute
    }

    function Port(): (p: int)
      reads this, config
      requires Valid()
      ensures p == State().port && 1 < p < 65535
    {
      config.port
    }

    function Timeout(): (seconds: int)
      reads this, config
      requires Valid()
      ensures seconds == State().connectionTimeout && seconds >= 0
    {
      config.connectionTimeout
    }

    function ThrottleTimeout(): (seconds: int)
      reads this, config
      requires Valid()
      ensures seconds == State().throttleTimeout && seconds >= 0
    {
      config.throttleTimeout
    }

    function MaxRetries(): (count: int)
      reads this, config
      requires Valid()
      ensures count == State().maxRetries && count >= 0
    {
      config.maxRetries
    }

    /** The URL-encoding flag of the client's state, which `FormatRoute` consults. */
    function EncodeUrl(): (on: bool)
      reads this, config
      ensures on == State().encodeUrl
    {
      config.encodeUrl
    }

    /** The form-encoding flag of the client's state. */
    function UseUrlencode(): (on: bool)
      reads this, config
      ensures on == State().useUrlencode
    {
      config.useUrlencode
    }

    /** The retry codes as a sequence: each member once, in no promised order. */
    method RetryOn() returns (codes: seq<int>)
      ensures forall c :: c in codes <==> c in config.retryOn
      ensures Distinct(codes) && |codes| == |config.retryOn|
    {
      var rest := config.retryOn;
      codes := [];
      while rest != {}
        invariant rest <= config.retryOn
        invariant forall c :: c in codes <==> c in config.retryOn && c !in rest
        invariant Distinct(codes)
        invariant |codes| + |rest| == |config.retryOn|
        decreases |rest|
      {
        SomeMember(rest);
        var code :| code in rest;
        codes := codes + [code];
        rest := rest - {code};
      }
    }

    // -------------------------------------------------------------------
    // Setters

    method SetPort(port: int)
      requires Valid()
      modifies config
      ensures Valid()
      ensures State() == old(State()).(port := SelectPort(port))
    {
      // The clamped value of the non-negativity check is computed and dropped.
      var clamped := ParseNoNegativeInt(port);
      config.port := SelectPort(port);
    }

    method SetTimeout(seconds: int := TIMEOUT_DEFAULT)
      requires Valid()
      modifies config
      ensures Valid()
      ensures State() == old(State()).(connectionTimeout := ParseNoNegativeInt(seconds))
    {
      config.connectionTimeout := ParseNoNegativeInt(seconds);
    }

    method SetThrottleTimeout(seconds: int := THROTTLE_TIMEOUT_DEFAULT)
      requires Valid()
      modifies config
      ensures Valid()
      ensures State() == old(State()).(throttleTimeout := ParseNoNegativeInt(seconds))
    {
      config.throttleTimeout := ParseNoNegativeInt(seconds);
    }

    method SetMaxRetries(count: int := MAX_RETRIES_DEFAULT)
      requires Valid()
      modifies config
      ensures Valid()
      ensures State() == old(State()).(maxRetries := ParseNoNegativeInt(count))
    {
      config.maxRetries := ParseNoNegativeInt(count);
    }

    method SetEncodeUrl(encodeUrl: bool := ENCODE_URL_DEFAULT)
      requires Valid()
      modifies config
      ensures Valid()
      ensures State() == old(State()).(encodeUrl := encodeUrl)
      ensures EncodeUrl() == encodeUrl
    {
      config.encodeUrl := encodeUrl;
    }

    method SetUseUrlencode(useUrlencode: bool := USE_URLENCODE_DEFAULT)
      requires Valid()
      modifies config
      ensures Valid()
      ensures State() == old(State()).(useUrlencode := useUrlencode)
      ensures UseUrlencode() == useUrlencode
    {
      config.useUrlencode := useUrlencode;
    }

    /** Adds each code in turn to the retry set. */
    method SetRetryOnCodes(codes: seq<int>)
      requires Valid()
      modifies config
      ensures Valid()
      ensures State() == old(State()).(retryOn := AddCodes(old(config.retryOn), codes))
    {
      for i := 0 to |codes|
        invariant config.retryOn == old(config.retryOn) + set c | c in codes[..i]
        invariant State() == old(State()).(retryOn := config.retryOn)
      {
        assert codes[..i + 1] == codes[..i] + [codes[i]];
        config.retryOn := config.retryOn + {codes[i]};
      }
      assert codes[..|codes|] == codes;
    }

    /** Discards each code in turn from the retry set; an absent code is no error. */
    method RemoveRetryOnCodes(codes: seq<int>)
      requires Valid()
      modifies config
      ensures Valid()
      ensures State() == old(State()).(retryOn := DiscardCodes(old(config.retryOn), codes))
    {
      for i := 0 to |codes|
        invariant config.retryOn == old(config.retryOn) - set c | c in codes[..i]
        invariant State() == old(State()).(retryOn := config.retryOn)
      {
        assert codes[..i + 1] == codes[..i] + [codes[i]];
        config.retryOn := config.retryOn - {codes[i]};
      }
      assert codes[..|codes|] == codes;
    }

    /** Stores the normalised base route and returns what was stored. */
    method SetBaseRoute(route: string) returns (stored: string)
      requires IsCleanHost(url) && config.Valid()
      modifies this
      ensures Valid()
      ensures State() == old(State()).(baseRoute := NormalizeBaseRoute(route))
      ensures stored == baseRoute
    {
      baseRoute := NormalizeBaseRoute(route);
      stored := baseRoute;
    }

    // -------------------------------------------------------------------
    // Routes

    /**
      The request path for `route`: the base route and the call route joined
      by one `/`, percent-encoded when `encodeUrl` is set.
    */
    function FormatRoute(route: string): (r: string)
      reads this, config
      requires Valid()
      ensures |r| > 0 && r[0] == '/'
      ensures !config.encodeUrl ==> r == JoinRoute(baseRoute, route)
      ensures config.encodeUrl ==> r == Quote(JoinRoute(baseRoute, route))
      ensures config.encodeUrl ==> PercentDecode(r) == Some(Utf8(JoinRoute(baseRoute, route)))
      ensures config.encodeUrl ==> forall i :: 0 <= i < |r| ==> IsQuotedChar(r[i])
    {
      var combined := JoinRoute(baseRoute, route);
      JoinRouteOnNormalizedBase(baseRoute, route);
      if config.encodeUrl then
        QuoteRoundTrip(combined);
        QuoteKeepsSafeHead(combined);
        QuoteAlphabet(combined);
        Quote(combined)
      else
        combined
    }
  }
}

=== FILE: outcomes.dfy ===
/** Failure-carrying values used where the client raises an exception. */
module Outcomes {

  datatype Option<+T> = None | Some(value: T)

  datatype Result<+T, +E> = Ok(value: T) | Err(error: E)
}

=== FILE: quoting.dfy ===
/**
  Percent-encoding as `urllib.parse.quote(s, safe="/?=&")` performs it: the
  string is encoded as UTF-8, and every byte outside the unreserved set of
  section 2.3 of RFC 3986 (letters, digits, `_ . - ~`) and outside the extra
  safe characters `/ ? = &` becomes `%XX` with two upper-case hexadecimal
  digits (section 2.1 of RFC 3986). `PercentDecode` is the inverse the
  encoder is proved against.
*/
module Quoting {
  import opened Outcomes

  type Byte = x: int | 0 <= x < 256

  /** Unreserved characters of section 2.3 of RFC 3986. */
  predicate IsUnreserved(c: char)
  {
    ('A' <= c <= 'Z') || ('a' <= c <= 'z') || ('0' <= c <= '9') ||
    c == '_' || c == '.' || c == '-' || c == '~'
  }

  /** Characters `quote` leaves alone: the unreserved ones plus `safe="/?=&"`. */
  predicate IsSafeChar(c: char)
  {
    IsUnreserved(c) || c == '/' || c == '?' || c == '=' || c == '&'
  }

  predicate IsSafeByte(b: Byte)
  {
    b < 128 && IsSafeChar(b as char)
  }

  /** The UTF-8 encoding of one Unicode scalar value. */
  function Utf8Char(c: char): (bs: seq<Byte>)
    ensures 1 <= |bs| <= 4
    ensures c as int < 0x80 ==> bs == [c as int]
    ensures c as int >= 0x80 ==> forall i :: 0 <= i < |bs| ==> bs[i] >= 0x80
  {
    var n := c as int;
    if n < 0x80 then [n]
    else if n < 0x800 then [0xC0 + n / 0x40, 0x80 + n % 0x40]
    else if n < 0x10000 then [0xE0 + n / 0x1000, 0x80 + (n / 0x40) % 0x40, 0x80 + n % 0x40]
    else [0xF0 + n / 0x40000, 0x80 + (n / 0x1000) % 0x40, 0x80 + (n / 0x40) % 0x40, 0x80 + n % 0x40]
  }

  /** `s.encode("utf-8")`. */
  function Utf8(s: string): (bs: seq<Byte>)
    ensures |s| <= |bs| <= 4 * |s|
  {
    if s == [] then [] else Utf8Char(s[0]) + Utf8(s[1..])
  }

  function HexDigit(d: int): (c: char)
    requires 0 <= d < 16
    ensures IsHexDigit(c)
  {
    if d < 10 then ('0' as int + d) as char else ('A' as int + d - 10) as char
  }

  predicate IsHexDigit(c: char)
  {
    ('0' <= c <= '9') || ('A' <= c <= 'F')
  }

  function HexValue(c: char): (d: int)
    requires IsHexDigit(c)
    ensures 0 <= d < 16
    ensures HexDigit(d) == c
  {
    if c <= '9' then c as int - '0' as int else c as int - 'A' as int + 10
  }

  /** What the quoter emits for one byte. */
  function QuoteByte(b: Byte): (t: string)
    ensures |t| == (if IsSafeByte(b) then 1 else 3)
    ensures PercentDecode(t) == Some([b])
  {
    if IsSafeByte(b) then
      var t := [b as char];
      assert t[0] != '%' && IsSafeChar(t[0]) && t[0] as int == b && t[1..] == [];
      assert PercentDecode(t[1..]) == Some([]);
      assert PercentDecode(t) == Some([b] + []) && [b] + [] == [b];
      t
    else
      var hi, lo := HexDigit(b / 16), HexDigit(b % 16);
      HexDigitInjective(HexValue(hi), b / 16);
      HexDigitInjective(HexValue(lo), b % 16);
      var t := ['%', hi, lo];
      assert t[0] == '%' && IsHexDigit(t[1]) && IsHexDigit(t[2]) && t[3..] == [];
      assert PercentDecode(t[3..]) == Some([]);
      assert HexValue(hi) == b / 16 && HexValue(lo) == b % 16;
      assert PercentDecode(t) == Some([HexValue(t[1]) * 16 + HexValue(t[2])] + []);
      assert [(b / 16) * 16 + b % 16] + [] == [b];
      t
  }

  /** `quote_from_bytes` past its shortcut: the quoted bytes joined in order. */
  function QuoteBytes(bs: seq<Byte>): (t: string)
    ensures |bs| <= |t| <= 3 * |bs|
  {
    if bs == [] then [] else QuoteByte(bs[0]) + QuoteBytes(bs[1..])
  }

  predicate AllSafe(bs: seq<Byte>)
  {
    forall i :: 0 <= i < |bs| ==> IsSafeByte(bs[i])
  }

  /**
    `quote(s, safe="/?=&")`: a string whose UTF-8 bytes are all safe is
    returned as it is (the `rstrip` shortcut of `quote_from_bytes`), any other
    one byte by byte.
  */
  function Quote(s: string): (t: string)
    ensures t == s || |t| > |s|
  {
    var bs := Utf8(s);
    if AllSafe(bs) then s else QuoteBytesLonger(bs); QuoteBytes(bs)
  }

  /** Reads a percent-encoded string back into the bytes it stands for. */
  function PercentDecode(t: string): (r: Option<seq<Byte>>)
    decreases |t|
  {
    if t == [] then Some([])
    else if t[0] == '%' then
      if |t| >= 3 && IsHexDigit(t[1]) && IsHexDigit(t[2]) then
        match PercentDecode(t[3..])
        case None => None
        case Some(rest) => Some([HexValue(t[1]) * 16 + HexValue(t[2])] + rest)
      else None
    else if IsSafeChar(t[0]) && t[0] as int < 128 then
      match PercentDecode(t[1..])
      case None => None
      case Some(rest) => Some([t[0] as int] + rest)
    else None
  }

  /** Decoding what the quoter produced gives back the bytes. */
  lemma {:induction false} QuoteBytesDecodes(bs: seq<Byte>)
    ensures PercentDecode(QuoteBytes(bs)) == Some(bs)
  {
    if bs != [] {
      var b, t := bs[0], QuoteBytes(bs[1..]);
      QuoteBytesDecodes(bs[1..]);
      assert QuoteBytes(bs) == QuoteByte(b) + t;
      if IsSafeByte(b) {
        var q := QuoteByte(b) + t;
        assert q[0] == b as char && q[0] != '%' && q[0] as int == b;
        assert q[1..] == t;
        assert PercentDecode(q) == Some([b] + bs[1..]);
        assert [b] + bs[1..] == bs;
      } else {
        var q := QuoteByte(b) + t;
        assert q[3..] == t;
        assert HexValue(q[1]) == b / 16 && HexValue(q[2]) == b % 16 by {
          HexDigitInjective(HexValue(q[1]), b / 16);
          HexDigitInjective(HexValue(q[2]), b % 16);
        }
        assert PercentDecode(q) == Some([(b / 16) * 16 + b % 16] + bs[1..]);
        assert [(b / 16) * 16 + b % 16] + bs[1..] == bs;
      }
    }
  }

  lemma HexDigitInjective(d: int, e: int)
    requires 0 <= d < 16 && 0 <= e < 16 && HexDigit(d) == HexDigit(e)
    ensures d == e
  {
  }

  /** When every UTF-8 byte is safe, the byte-by-byte output is the input itself. */
  lemma {:induction false} QuoteBytesOfSafe(s: string)
    requires AllSafe(Utf8(s))
    ensures QuoteBytes(Utf8(s)) == s
  {
    if s != [] {
      var head, tail := Utf8Char(s[0]), Utf8(s[1..]);
      assert Utf8(s) == head + tail;
      assert head[0] == Utf8(s)[0];
      assert s[0] as int < 0x80;
      assert AllSafe(tail) by {
        forall i | 0 <= i < |tail| ensures IsSafeByte(tail[i]) {
          assert tail[i] == Utf8(s)[i + 1];
        }
      }
      QuoteBytesOfSafe(s[1..]);
      assert Utf8(s) == [s[0] as int] + tail;
      assert QuoteBytes(Utf8(s)) == QuoteByte(s[0] as int) + QuoteBytes(tail);
    }
  }

  /** The shortcut and the byte-by-byte path of `quote` agree. */
  lemma QuoteIsQuoteBytes(s: string)
    ensures Quote(s) == QuoteBytes(Utf8(s))
  {
    if AllSafe(Utf8(s)) {
      QuoteBytesOfSafe(s);
    }
  }

  /** Percent-decoding the quoted string gives back the UTF-8 bytes of the input. */
  lemma QuoteRoundTrip(s: string)
    ensures PercentDecode(Quote(s)) == Some(Utf8(s))
  {
    QuoteIsQuoteBytes(s);
    QuoteBytesDecodes(Utf8(s));
  }

  /** Every UTF-8 byte of a string made of safe characters is safe. */
  lemma {:induction false} SafeCharsGiveSafeBytes(s: string)
    requires forall i :: 0 <= i < |s| ==> IsSafeChar(s[i])
    ensures AllSafe(Utf8(s)) && Utf8(s) == seq(|s|, i requires 0 <= i < |s| => s[i] as int)
  {
    if s != [] {
      SafeCharsGiveSafeBytes(s[1..]);
      assert s[0] as int < 0x80;
    }
  }

  /** A string with an unsafe character has an unsafe UTF-8 byte. */
  lemma {:induction false} UnsafeCharGivesUnsafeByte(s: string, k: nat)
    requires k < |s| && !IsSafeChar(s[k])
    ensures !AllSafe(Utf8(s))
  {
    var head, tail := Utf8Char(s[0]), Utf8(s[1..]);
    assert Utf8(s) == head + tail;
    if k == 0 {
      assert Utf8(s)[0] == head[0];
      if s[0] as int < 0x80 {
        assert (s[0] as int) as char == s[0];
      }
    } else {
      UnsafeCharGivesUnsafeByte(s[1..], k - 1);
      var i :| 0 <= i < |tail| && !IsSafeByte(tail[i]);
      assert Utf8(s)[|head| + i] == tail[i];
    }
  }

  /** Each unsafe byte costs two extra characters, so output is longer than input. */
  lemma {:induction false} QuoteBytesLonger(bs: seq<Byte>)
    requires !AllSafe(bs)
    ensures |QuoteBytes(bs)| > |bs|
  {
    if !IsSafeByte(bs[0]) {
    } else {
      assert !AllSafe(bs[1..]) by {
        var i :| 0 <= i < |bs| && !IsSafeByte(bs[i]);
        assert bs[1..][i - 1] == bs[i];
      }
      QuoteBytesLonger(bs[1..]);
    }
  }

  /** `quote` returns its input unchanged exactly when every character is safe. */
  lemma QuoteUnchangedIff(s: string)
    ensures Quote(s) == s <==> forall i :: 0 <= i < |s| ==> IsSafeChar(s[i])
  {
    if forall i :: 0 <= i < |s| ==> IsSafeChar(s[i]) {
      SafeCharsGiveSafeBytes(s);
    } else {
      var k :| 0 <= k < |s| && !IsSafeChar(s[k]);
      UnsafeCharGivesUnsafeByte(s, k);
      QuoteBytesLonger(Utf8(s));
    }
  }

  /** Output alphabet: safe characters, `%`, and upper-case hexadecimal digits. */
  predicate IsQuotedChar(c: char)
  {
    IsSafeChar(c) || c == '%' || IsHexDigit(c)
  }

  lemma {:induction false} QuoteBytesAlphabet(bs: seq<Byte>)
    ensures forall i :: 0 <= i < |QuoteBytes(bs)| ==> IsQuotedChar(QuoteBytes(bs)[i])
  {
    if bs != [] {
      QuoteBytesAlphabet(bs[1..]);
      var h, t := QuoteByte(bs[0]), QuoteBytes(bs[1..]);
      assert QuoteBytes(bs) == h + t;
      forall i | 0 <= i < |h + t| ensures IsQuotedChar((h + t)[i]) {
        if i >= |h| { assert (h + t)[i] == t[i - |h|]; }
      }
    }
  }

  /** Everything `quote` emits is a safe character, `%` or a hexadecimal digit. */
  lemma QuoteAlphabet(s: string)
    ensures forall i :: 0 <= i < |Quote(s)| ==> IsQuotedChar(Quote(s)[i])
  {
    QuoteIsQuoteBytes(s);
    QuoteBytesAlphabet(Utf8(s));
  }

  /** A leading safe character (such as `/`) survives quoting in first position. */
  lemma QuoteKeepsSafeHead(s: string)
    requires |s| > 0 && IsSafeChar(s[0])
    ensures |Quote(s)| > 0 && Quote(s)[0] == s[0]
  {
    QuoteIsQuoteBytes(s);
    var head, tail := Utf8Char(s[0]), Utf8(s[1..]);
    assert Utf8(s) == [s[0] as int] + tail;
    assert QuoteBytes(Utf8(s)) == QuoteByte(s[0] as int) + QuoteBytes(tail);
  }

  lemma {:induction false} Utf8Append(a: string, b: string)
    ensures Utf8(a + b) == Utf8(a) + Utf8(b)
  {
    if a != [] {
      assert (a + b)[0] == a[0] && (a + b)[1..] == a[1..] + b;
      Utf8Append(a[1..], b);
    } else {
      assert a + b == b;
    }
  }

  lemma {:induction false} QuoteBytesAppend(x: seq<Byte>, y: seq<Byte>)
    ensures QuoteBytes(x + y) == QuoteBytes(x) + QuoteBytes(y)
  {
    if x != [] {
      assert (x + y)[0] == x[0] && (x + y)[1..] == x[1..] + y;
      QuoteBytesAppend(x[1..], y);
    } else {
      assert x + y == y;
    }
  }

  /** Quoting works piece by piece: the quote of a concatenation is the concatenation of the quotes. */
  lemma QuoteAppend(a: string, b: string)
    ensures Quote(a + b) == Quote(a) + Quote(b)
  {
    QuoteIsQuoteBytes(a + b);
    QuoteIsQuoteBytes(a);
    QuoteIsQuoteBytes(b);
    Utf8Append(a, b);
    QuoteBytesAppend(Utf8(a), Utf8(b));
  }

  /** A lone space is written `%20`. */
  lemma QuoteSpace()
    ensures Quote(" ") == "%20"
  {
    assert Utf8(" ") == [32];
    assert !IsSafeByte(Utf8(" ")[0]);
    assert QuoteBytes([32]) == "%20";
  }

  /** A space between two runs of safe characters is written `%20`, the rest is kept. */
  lemma QuoteSpaceBetween(a: string, b: string)
    requires forall i :: 0 <= i < |a| ==> IsSafeChar(a[i])
    requires forall i :: 0 <= i < |b| ==> IsSafeChar(b[i])
    ensures Quote(a + " " + b) == a + "%20" + b
  {
    QuoteUnchangedIff(a);
    QuoteUnchangedIff(b);
    QuoteAppend(a + " ", b);
    QuoteAppend(a, " ");
    QuoteSpace();
  }
}

=== FILE: rules.dfy ===
/**
  The value-level rules of the HTTPS REST client: its defaults, the clamping
  of numeric settings, the port fallback, the cleaning of the host given at
  construction, the normalisation of the base route, the joining of a call
  route onto it, and the retry-status-code set updates.
*/
module Rules {
  import opened Outcomes
  import opened Text

  const TIMEOUT_DEFAULT: int := 30
  const THROTTLE_TIMEOUT_DEFAULT: int := 60
  const MAX_RETRIES_DEFAULT: int := 3
  const RETRY_ON_DEFAULT: set<int> := {401, 402, 403, 408, 429, 500, 502, 503, 504}
  const ENCODE_URL_DEFAULT: bool := true
  const USE_URLENCODE_DEFAULT: bool := false
  const PORT_DEFAULT: int := 443

  /** The two ways the host given at construction is refused. */
  datatype UrlError =
    | RouteInUrl  // a `/` is left after the scheme is removed
    | QueryInUrl  // a `?` is left after the scheme is removed

  // ---------------------------------------------------------------------
  // Numeric settings

  /** `_parse_no_negative_int`: the value, or `default` when the value is below it. */
  function ParseNoNegativeInt(value: int, default: int := 0): (r: int)
    ensures r >= default && r >= value
    ensures r == value || r == default
  {
    if value > default then value else default
  }

  /** Ports the client will store. */
  predicate IsAllowedPort(p: int) { 1 < p < 65535 }

  /** The port `set_port` stores: the given one if strictly between 1 and 65535, else 443. */
  function SelectPort(port: int): (p: int)
    ensures IsAllowedPort(p)
    ensures p == port || p == PORT_DEFAULT
    ensures IsAllowedPort(port) ==> p == port
  {
    if port > 1 && port < 65535 then port else PORT_DEFAULT
  }

  /** The numeric-setter cases of the client's test suite: -19 reads back as 0, others as given. */
  lemma ClampExamples()
    ensures ParseNoNegativeInt(-19) == 0 && ParseNoNegativeInt(0) == 0 && ParseNoNegativeInt(10) == 10
  {
  }

  /** The bounds of the port range are themselves replaced by 443. */
  lemma PortExamples()
    ensures SelectPort(1) == 443 && SelectPort(65535) == 443 && SelectPort(0) == 443
    ensures SelectPort(2) == 2 && SelectPort(65534) == 65534 && SelectPort(8443) == 8443
  {
  }

  // ---------------------------------------------------------------------
  // Host cleaning

  /** A host as stored by the client: lower-case, without path or query. */
  predicate IsCleanHost(h: string)
  {
    '/' !in h && '?' !in h && IsLower(h)
  }

  /** `url.lower().replace("https://", "").replace("http://", "")`. */
  function CleanUrl(url: string): (r: string)
    ensures IsLower(r)
  {
    var lowered := Lower(url);
    var noHttps := RemoveAll(lowered, "https://");
    RemoveAllKeepsLower(lowered, "https://");
    RemoveAllKeepsLower(noHttps, "http://");
    RemoveAll(noHttps, "http://")
  }

  /** `_parse_url`: the cleaned host, refused if a `/` or else a `?` remains. */
  function ParseUrl(url: string): (r: Result<string, UrlError>)
    ensures r.Ok? <==> '/' !in CleanUrl(url) && '?' !in CleanUrl(url)
    ensures r.Ok? ==> r.value == CleanUrl(url) && IsCleanHost(r.value)
    ensures r == Err(RouteInUrl) <==> '/' in CleanUrl(url)
  {
    var cleaned := CleanUrl(url);
    if '/' in cleaned then Err(RouteInUrl)
    else if '?' in cleaned then Err(QueryInUrl)
    else Ok(cleaned)
  }

  /** `http://` followed by a string that lacks `/` or `:` holds no `https://`. */
  lemma HttpPrefixHasNoHttps(x: string)
    requires '/' !in x || ':' !in x
    ensures forall k :: 0 <= k <= |"http://" + x| ==> !StartsWith(("http://" + x)[k..], "https://")
  {
    var s, p := "http://" + x, "https://";
    if '/' !in x { NoMatchWithoutChar(x, p, 7); } else { NoMatchWithoutChar(x, p, 5); }
    forall k | 0 <= k <= |s| ensures !StartsWith(s[k..], p) {
      if k >= 7 {
        assert s[k..] == x[k - 7..];
      } else if k + 8 <= |s| {
        if '/' !in x {
          assert s[k..][7] == x[k];
        } else if k >= 2 {
          assert s[k..][5] == x[k - 2];
        } else {
          assert s[k..][5] == '/';
        }
      }
    }
  }

  /** A string lacking `/` or `:` holds neither scheme, so neither removal touches it. */
  lemma RemoveSchemesNoMatch(x: string)
    requires '/' !in x || ':' !in x
    ensures RemoveAll(x, "https://") == x && RemoveAll(x, "http://") == x
  {
    if '/' !in x {
      NoMatchWithoutChar(x, "https://", 7);
      NoMatchWithoutChar(x, "http://", 6);
    } else {
      NoMatchWithoutChar(x, "https://", 5);
      NoMatchWithoutChar(x, "http://", 4);
    }
    RemoveAllNoMatch(x, "https://");
    RemoveAllNoMatch(x, "http://");
  }

  /** A leading occurrence of the pattern is the first thing removed. */
  lemma RemoveAllLeading(p: string, x: string)
    requires |p| > 0
    ensures RemoveAll(p + x, p) == RemoveAll(x, p)
  {
    assert StartsWith(p + x, p) && (p + x)[|p|..] == x;
  }

  /** Lower-casing passes over a prefix that is lower-case already. */
  lemma LowerAfterLowerPrefix(prefix: string, h: string)
    requires IsLower(prefix)
    ensures Lower(prefix + h) == prefix + Lower(h)
  {
    LowerAppend(prefix, h);
    LowerOfLower(prefix);
  }

  /** The two schemes contain no upper-case letter. */
  lemma SchemesAreLower()
    ensures IsLower("https://") && IsLower("http://")
  {
  }

  lemma CleanUrlStripsHttps(h: string)
    requires '/' !in h || ':' !in h
    ensures CleanUrl("https://" + h) == Lower(h)
  {
    var x := Lower(h);
    LowerKeepsNonLetters(h, '/');
    LowerKeepsNonLetters(h, ':');
    RemoveSchemesNoMatch(x);
    SchemesAreLower();
    LowerAfterLowerPrefix("https://", h);
    RemoveAllLeading("https://", x);
  }

  lemma CleanUrlStripsHttp(h: string)
    requires '/' !in h || ':' !in h
    ensures CleanUrl("http://" + h) == Lower(h)
  {
    var x := Lower(h);
    LowerKeepsNonLetters(h, '/');
    LowerKeepsNonLetters(h, ':');
    RemoveSchemesNoMatch(x);
    SchemesAreLower();
    LowerAfterLowerPrefix("http://", h);
    HttpPrefixHasNoHttps(x);
    RemoveAllNoMatch("http://" + x, "https://");
    RemoveAllLeading("http://", x);
  }

  lemma CleanUrlOfBareHost(h: string)
    requires '/' !in h || ':' !in h
    ensures CleanUrl(h) == Lower(h)
  {
    var x := Lower(h);
    LowerKeepsNonLetters(h, '/');
    LowerKeepsNonLetters(h, ':');
    RemoveSchemesNoMatch(x);
  }

  /**
    Removing a scheme: given a host part that lacks `/` or lacks `:`, the
    cleaned string is the lower-cased host part, with or without an
    `https://` or `http://` in front.
  */
  lemma CleanUrlStripsScheme(scheme: string, h: string)
    requires scheme == "" || scheme == "https://" || scheme == "http://"
    requires '/' !in h || ':' !in h
    ensures CleanUrl(scheme + h) == Lower(h)
  {
    if scheme == "https://" {
      CleanUrlStripsHttps(h);
    } else if scheme == "http://" {
      CleanUrlStripsHttp(h);
    } else {
      assert scheme + h == h;
      CleanUrlOfBareHost(h);
    }
  }

  /** A bare host, with or without a scheme, is accepted and stored lower-cased. */
  lemma ParseUrlAcceptsBareHost(scheme: string, h: string)
    requires scheme == "" || scheme == "https://" || scheme == "http://"
    requires '/' !in h && '?' !in h
    ensures ParseUrl(scheme + h) == Ok(Lower(h))
  {
    CleanUrlStripsScheme(scheme, h);
    LowerKeepsNonLetters(h, '/');
    LowerKeepsNonLetters(h, '?');
  }

  /** Any `?` in the input survives cleaning, so the host is refused. */
  lemma ParseUrlRejectsQuery(url: string)
    requires '?' in url
    ensures ParseUrl(url).Err?
  {
    LowerKeepsNonLetters(url, '?');
    RemoveAllKeeps(Lower(url), "https://", '?');
    RemoveAllKeeps(RemoveAll(Lower(url), "https://"), "http://", '?');
  }

  /** A path after a host without a port colon is refused as a route. */
  lemma ParseUrlRejectsPath(scheme: string, h: string)
    requires scheme == "" || scheme == "https://" || scheme == "http://"
    requires ':' !in h && '/' in h
    ensures ParseUrl(scheme + h) == Err(RouteInUrl)
  {
    CleanUrlStripsScheme(scheme, h);
    LowerKeepsNonLetters(h, '/');
  }

  /** A host already in lower case is stored exactly as given, with or without a scheme. */
  lemma ParseUrlKeepsLowerHost(scheme: string, h: string)
    requires scheme == "" || scheme == "https://" || scheme == "http://"
    requires IsCleanHost(h)
    ensures ParseUrl(scheme + h) == Ok(h)
  {
    LowerOfLower(h);
    ParseUrlAcceptsBareHost(scheme, h);
  }

  /** The accepted host cases of the client's test suite, on `h == "example.com"`. */
  lemma ParseUrlAcceptExamples(h: string)
    requires h == "example.com"
    ensures ParseUrl(h) == Ok(h)
    ensures ParseUrl("https://" + h) == Ok(h)
    ensures ParseUrl("http://" + h) == Ok(h)
  {
    assert IsCleanHost(h);
    ParseUrlKeepsLowerHost("", h);
    ParseUrlKeepsLowerHost("https://", h);
    ParseUrlKeepsLowerHost("http://", h);
    assert "" + h == h;
  }

  /**
    Schemes are removed wherever they occur, not only in front: on
    `h == "ahttps://b"` the cleaned host is `ab`, and it is accepted.
  */
  lemma CleanUrlRemovesInnerScheme(h: string)
    requires h == "ahttps://b"
    ensures CleanUrl(h) == "ab"
    ensures ParseUrl(h) == Ok("ab")
  {
    var p, q := "https://", "http://";
    assert IsLower(h);
    LowerOfLower(h);
    assert !StartsWith(h, p) by { assert h[..|p|][0] == 'a'; }
    assert h == ['a'] + (p + "b") && h[1..] == p + "b";
    RemoveAllLeading(p, "b");
    assert RemoveAll("b", p) == "b" by { assert !StartsWith("b", p); assert "b"[1..] == []; }
    var ab := RemoveAll(h, p);
    assert ab == ['a'] + RemoveAll(h[1..], p);
    assert ab == "ab";
    NoMatchWithoutChar(ab, q, 0);
    RemoveAllNoMatch(ab, q);
  }

  /** The refused host cases of the client's test suite, on `h == "example.com"`. */
  lemma ParseUrlRejectExamples(h: string)
    requires h == "example.com"
    ensures ParseUrl("https://" + h + "/api/path") == Err(RouteInUrl)
    ensures ParseUrl("http://" + h + "/api/path") == Err(RouteInUrl)
    ensures ParseUrl(h + "?limit=100").Err?
  {
    var p := h + "/api/path";
    assert p[11] == '/';
    assert ':' !in p;
    ParseUrlRejectsPath("https://", p);
    ParseUrlRejectsPath("http://", p);
    assert "https://" + h + "/api/path" == "https://" + p;
    assert "http://" + h + "/api/path" == "http://" + p;
    var q := h + "?limit=100";
    assert q[11] == '?';
    ParseUrlRejectsQuery(q);
  }

  // ---------------------------------------------------------------------
  // Base route

  /** Empty, or a leading `/` and no trailing `/`. */
  predicate IsNormalizedBaseRoute(r: string)
  {
    r == "" || (r[0] == '/' && r[|r| - 1] != '/')
  }

  /** The string `set_base_route` stores for `route`. */
  function NormalizeBaseRoute(route: string): (r: string)
    ensures IsNormalizedBaseRoute(r)
    ensures r == "" <==> forall i :: 0 <= i < |route| ==> route[i] == '/'
  {
    if route != "" then
      var prefix := if !StartsWith(route, "/") then "/" else "";
      var postStrip := if EndsWith(route, "/") then "/" else "";
      assert route[0] == route[..1][0];
      assert route[|route| - 1] == route[|route| - 1..][0];
      prefix + RStrip(route, postStrip)
    else
      ""
  }

  /**
    The stored base route is the input with its trailing slashes removed and
    a leading slash added when it lacks one (and empty if nothing is left).
  */
  lemma NormalizeBaseRouteMeaning(route: string)
    ensures NormalizeBaseRoute(route) ==
      var t := RStrip(route, "/");
      if t == "" then "" else if t[0] == '/' then t else "/" + t
  {
    var t := RStrip(route, "/");
    if route != "" {
      assert route[0] == route[..1][0];
      assert route[|route| - 1] == route[|route| - 1..][0];
      if route[|route| - 1] != '/' {
        assert RStrip(route, "") == route;
      }
      if t != [] {
        assert t[0] == route[0];
      }
    }
  }

  /** Normalising a normalised base route changes nothing. */
  lemma NormalizeBaseRouteIdempotent(route: string)
    ensures NormalizeBaseRoute(NormalizeBaseRoute(route)) == NormalizeBaseRoute(route)
  {
    var r := NormalizeBaseRoute(route);
    if r != "" {
      assert r[0] == r[..1][0];
      assert r[|r| - 1] == r[|r| - 1..][0];
      assert RStrip(r, "") == r;
    }
  }

  /** The base-route cases of the client's test suite, on `a == "api/path"`. */
  lemma NormalizeBaseRouteExamples(a: string)
    requires a == "api/path"
    ensures NormalizeBaseRoute(a + "/") == "/" + a
    ensures NormalizeBaseRoute("/" + a + "/") == "/" + a
    ensures NormalizeBaseRoute(a) == "/" + a
    ensures NormalizeBaseRoute("/" + a) == "/" + a
  {
    var b := "/" + a;
    assert b + "/" == "/" + a + "/";
    StripOneSlash(a);
    StripOneSlash(b);
    NoSlashToStrip(a);
    NoSlashToStrip(b);
    NormalizeBaseRouteMeaning(a + "/");
    NormalizeBaseRouteMeaning(b + "/");
    NormalizeBaseRouteMeaning(a);
    NormalizeBaseRouteMeaning(b);
  }

  lemma StripOneSlash(s: string)
    requires |s| > 0 && s[|s| - 1] != '/'
    ensures RStrip(s + "/", "/") == s
  {
    assert (s + "/")[..|s|] == s;
  }

  lemma NoSlashToStrip(s: string)
    requires |s| > 0 && s[|s| - 1] != '/'
    ensures RStrip(s, "/") == s
  {
  }

  // ---------------------------------------------------------------------
  // Route joining

  /**
    The combined route of `format_route`: the base route, one `/`, then the
    call route without its own leading `/` if it has one.
  */
  function JoinRoute(base: string, route: string): (r: string)
    ensures |r| > |base| && r[..|base|] == base && r[|base|] == '/'
    ensures r[|base| + 1..] == if StartsWith(route, "/") then route[1..] else route
  {
    if StartsWith(route, "/") then
      assert route == [route[0]] + route[1..];
      base + route
    else
      base + "/" + route
  }

  /**
    On a normalised base route the combined route starts with `/`, and the
    join adds no second `/` next to the base.
  */
  lemma JoinRouteOnNormalizedBase(base: string, route: string)
    requires IsNormalizedBaseRoute(base)
    ensures JoinRoute(base, route)[0] == '/'
    ensures base != "" ==> JoinRoute(base, route)[|base| - 1] != '/'
  {
    var r := JoinRoute(base, route);
    if base != "" {
      assert r[0] == r[..|base|][0];
      assert r[|base| - 1] == r[..|base|][|base| - 1];
    }
  }

  /** A call route lands on the same path with or without its leading `/`. */
  lemma JoinRouteLeadingSlashOptional(base: string, route: string)
    requires !StartsWith(route, "/")
    ensures JoinRoute(base, "/" + route) == JoinRoute(base, route)
  {
    assert StartsWith("/" + route, "/") && ("/" + route)[1..] == route;
  }

  // ---------------------------------------------------------------------
  // Retry status codes

  /** The set after `set.add(code)` for each code in turn. */
  function AddCodes(s: set<int>, codes: seq<int>): (r: set<int>)
    ensures r == s + set c | c in codes
    decreases |codes|
  {
    if codes == [] then s else AddCodes(s + {codes[0]}, codes[1..])
  }

  /** The set after `set.discard(code)` for each code in turn. */
  function DiscardCodes(s: set<int>, codes: seq<int>): (r: set<int>)
    ensures r == s - set c | c in codes
    decreases |codes|
  {
    if codes == [] then s else DiscardCodes(s - {codes[0]}, codes[1..])
  }

  predicate Distinct(codes: seq<int>)
  {
    forall i, j :: 0 <= i < j < |codes| ==> codes[i] != codes[j]
  }

  /** Adding codes none of which is present grows the set by their number. */
  lemma {:induction false} AddCodesCardinality(s: set<int>, codes: seq<int>)
    requires Distinct(codes)
    requires forall i :: 0 <= i < |codes| ==> codes[i] !in s
    ensures |AddCodes(s, codes)| == |s| + |codes|
    decreases |codes|
  {
    if codes != [] {
      var s' := s + {codes[0]};
      assert |s'| == |s| + 1;
      forall i | 0 <= i < |codes[1..]| ensures codes[1..][i] !in s' {
        assert codes[1..][i] == codes[i + 1];
      }
      AddCodesCardinality(s', codes[1..]);
    }
  }

  /** Discarding the codes just added, none of them present before, restores the set. */
  lemma AddThenDiscardRestores(s: set<int>, codes: seq<int>)
    requires forall i :: 0 <= i < |codes| ==> codes[i] !in s
    ensures DiscardCodes(AddCodes(s, codes), codes) == s
  {
    assert forall c :: c in codes ==> c !in s;
  }

  /** Adding a present code, or discarding an absent one, changes nothing. */
  lemma AddDiscardNoOps(s: set<int>, code: int)
    ensures code in s ==> AddCodes(s, [code]) == s
    ensures code !in s ==> DiscardCodes(s, [code]) == s
  {
  }

  /** The default retry set holds nine codes. */
  lemma DefaultRetryCodesCount()
    ensures |RETRY_ON_DEFAULT| == 9
  {
    var s4 := {401, 402, 403, 408};
    assert |s4| == 4;
    var s9 := s4 + {429, 500, 502, 503, 504};
    assert |{429, 500, 502, 503, 504}| == 5;
    assert s4 !! {429, 500, 502, 503, 504};
    assert s9 == RETRY_ON_DEFAULT;
  }

  /**
    Adding distinct codes that are all new grows the set by their number and
    makes each a member; discarding them again restores the set.
  */
  lemma AddNewCodesThenDiscard(s: set<int>, codes: seq<int>)
    requires Distinct(codes)
    requires forall i :: 0 <= i < |codes| ==> codes[i] !in s
    ensures |AddCodes(s, codes)| == |s| + |codes|
    ensures forall i :: 0 <= i < |codes| ==> codes[i] in AddCodes(s, codes)
    ensures DiscardCodes(AddCodes(s, codes), codes) == s
  {
    AddCodesCardinality(s, codes);
    AddThenDiscardRestores(s, codes);
  }

  /** The retry-code case of the client's test suite, on the default set. */
  lemma RetryCodesExample(s: set<int>, codes: seq<int>)
    requires s == RETRY_ON_DEFAULT && codes == [1, 2, -3, 4]
    ensures |AddCodes(s, codes)| == |s| + 4
    ensures 4 in AddCodes(s, codes)
    ensures DiscardCodes(AddCodes(s, codes), codes) == s
    ensures 4 !in DiscardCodes(AddCodes(s, codes), codes)
  {
    assert forall c :: c in s ==> c >= 400;
    assert Distinct(codes) && codes[3] == 4;
    assert forall i :: 0 <= i < |codes| ==> codes[i] < 400;
    AddNewCodesThenDiscard(s, codes);
  }
}

=== FILE: text.dfy ===
/**
  The handful of Python `str` operations the client relies on, over `seq<char>`:
  `lower()` (for ASCII letters), `startswith`, `endswith`, `replace(pat, "")` and
  `rstrip(chars)`.
*/
module Text {

  predicate IsUpperAscii(c: char) { 'A' <= c <= 'Z' }

  /** `c.lower()` for an ASCII letter; every other character is left alone. */
  function LowerChar(c: char): char
  {
    if IsUpperAscii(c) then (c as int + 32) as char else c
  }

  /** No ASCII upper-case letter occurs in `s`. */
  predicate IsLower(s: string)
  {
    forall i :: 0 <= i < |s| ==> !IsUpperAscii(s[i])
  }

  /** `s.lower()`, character by character. */
  function Lower(s: string): (r: string)
    ensures |r| == |s|
    ensures forall i :: 0 <= i < |s| ==> r[i] == LowerChar(s[i])
    ensures IsLower(r)
  {
    if s == [] then [] else [LowerChar(s[0])] + Lower(s[1..])
  }

  /** `s.startswith(prefix)`: `s` is `prefix` followed by something. */
  predicate StartsWith(s: string, prefix: string)
    ensures StartsWith(s, prefix) <==> exists rest :: s == prefix + rest
  {
    if |prefix| <= |s| && s[..|prefix|] == prefix then
      assert s == prefix + s[|prefix|..];
      true
    else
      false
  }

  /** `s.endswith(suffix)`: `s` is something followed by `suffix`. */
  predicate EndsWith(s: string, suffix: string)
    ensures EndsWith(s, suffix) <==> exists front :: s == front + suffix
  {
    if |suffix| <= |s| && s[|s| - |suffix|..] == suffix then
      assert s == s[..|s| - |suffix|] + suffix;
      true
    else
      false
  }

  /**
    `s.replace(pat, "")`: scanning left to right, every non-overlapping
    occurrence of `pat` is cut out.
  */
  function RemoveAll(s: string, pat: string): (r: string)
    requires |pat| > 0
    ensures |r| <= |s|
    ensures forall c :: c in r ==> c in s
    decreases |s|
  {
    if s == [] then []
    else if StartsWith(s, pat) then RemoveAll(s[|pat|..], pat)
    else [s[0]] + RemoveAll(s[1..], pat)
  }

  /** `s.rstrip(chars)`: trailing characters that occur in `chars` are dropped. */
  function RStrip(s: string, chars: string): (r: string)
    ensures |r| <= |s| && r == s[..|r|]
    ensures r == [] || r[|r| - 1] !in chars
    ensures forall i :: |r| <= i < |s| ==> s[i] in chars
    decreases |s|
  {
    if |s| > 0 && s[|s| - 1] in chars then RStrip(s[..|s| - 1], chars) else s
  }

  /** Lower-casing distributes over concatenation. */
  lemma LowerAppend(a: string, b: string)
    ensures Lower(a + b) == Lower(a) + Lower(b)
  {
    var l, r := Lower(a + b), Lower(a) + Lower(b);
    assert forall i :: 0 <= i < |l| ==> l[i] == r[i] by {
      forall i | 0 <= i < |l| ensures l[i] == r[i] {
        if i < |a| { assert (a + b)[i] == a[i]; } else { assert (a + b)[i] == b[i - |a|]; }
      }
    }
  }

  /** Lower-casing a string that has no upper-case letter changes nothing. */
  lemma LowerOfLower(s: string)
    requires IsLower(s)
    ensures Lower(s) == s
  {
    var l := Lower(s);
    assert forall i :: 0 <= i < |s| ==> l[i] == s[i];
  }

  /** Lower-casing neither adds nor removes any non-letter character. */
  lemma LowerKeepsNonLetters(s: string, c: char)
    requires !('A' <= c <= 'Z') && !('a' <= c <= 'z')
    ensures c in Lower(s) <==> c in s
  {
    var l := Lower(s);
    if c in s {
      var i :| 0 <= i < |s| && s[i] == c;
      assert l[i] == c;
    }
    if c in l {
      var i :| 0 <= i < |l| && l[i] == c;
      assert s[i] == c;
    }
  }

  /** Removing `pat` leaves every character that `pat` does not contain. */
  lemma {:induction false} RemoveAllKeeps(s: string, pat: string, c: char)
    requires |pat| > 0 && c !in pat
    ensures c in RemoveAll(s, pat) <==> c in s
    decreases |s|
  {
    if s == [] {
    } else if StartsWith(s, pat) {
      RemoveAllKeeps(s[|pat|..], pat, c);
      assert s == pat + s[|pat|..];
    } else {
      RemoveAllKeeps(s[1..], pat, c);
      assert s == [s[0]] + s[1..];
    }
  }

  /** Removing from a string without upper-case letters gives one without them. */
  lemma {:induction false} RemoveAllKeepsLower(s: string, pat: string)
    requires |pat| > 0 && IsLower(s)
    ensures IsLower(RemoveAll(s, pat))
    decreases |s|
  {
    var r := RemoveAll(s, pat);
    forall i | 0 <= i < |r| ensures !IsUpperAscii(r[i]) {
      assert r[i] in r;
      var j :| 0 <= j < |s| && s[j] == r[i];
    }
  }

  /** When `pat` occurs nowhere in `s`, `s.replace(pat, "")` is `s` itself. */
  lemma {:induction false} RemoveAllNoMatch(s: string, pat: string)
    requires |pat| > 0
    requires forall k :: 0 <= k <= |s| ==> !StartsWith(s[k..], pat)
    ensures RemoveAll(s, pat) == s
    decreases |s|
  {
    if s != [] {
      assert s[0..] == s;
      forall k | 0 <= k <= |s[1..]| ensures !StartsWith(s[1..][k..], pat) {
        assert s[1..][k..] == s[k + 1..];
      }
      RemoveAllNoMatch(s[1..], pat);
    }
  }

  /** A string in which the character `pat[j]` never occurs holds no occurrence of `pat`. */
  lemma NoMatchWithoutChar(s: string, pat: string, j: nat)
    requires j < |pat| && pat[j] !in s
    ensures forall k :: 0 <= k <= |s| ==> !StartsWith(s[k..], pat)
  {
    forall k | 0 <= k <= |s| ensures !StartsWith(s[k..], pat) {
      if k + j < |s| {
        assert s[k + j] in s;
        assert s[k..][j] == s[k + j];
      }
    }
  }
}
